=== FILE: README.md ===
# PaperBlossoms CSV codec in Dafny

PaperBlossoms keeps its rule data in an SQLite database and moves whole
tables in and out of it as CSV files. `DataAccessLayer` holds the codec:

- `parseCSV` splits one line into fields with a two-state scanner, Normal and
  Quote. Fields are trimmed of white space while their quotes are still
  attached. Afterwards, a leading quote is removed, and then a trailing quote
  too, but only when the leading one was removed.
- `escapedCSV` writes a newline as the three characters `%0A`, but only in a
  value that holds a comma.
- `tableToCsv` and `queryToCsv` write every result record followed by a
  newline. Each value is wrapped in double quotes and escaped, and the cells
  are separated by commas. A value with a newline and no comma puts a raw
  newline inside the record.
- `importCSV` empties the table with a `DELETE`. It then turns every line of
  the file into an `INSERT` whose values are the parsed fields in quotes. It
  restores `%0A` to newlines in that statement and runs it. The import
  succeeds only when every statement succeeded.

The model has five modules:

- `Strings`: Qt's white space, `trimmed`, `join`, splitting on a character,
  and quoting.
- `CsvParse`: the scanner `Scan`, the unquoting post-pass `Unquote`, and
  `ParseCsv`.
- `CsvEscape`: `escapedCSV` as `EscapeCsv`; `replace("\n","%0A")` as
  `ReplaceNewlines` and `replace("%0A","\n")` as `RestoreNewlines`.
- `CsvExport`: the cell, the record line, the record-writing loop
  `WriteRow` and the export `ExportCsv`.
- `CsvImport`: the statement text (`Request`, `InsertStatement`), the
  request-building loop `BuildRequest` and the import `ImportCsv`.

Every operation has a partner it is tied to:

- Parsing is tied to serialising, by the round trips `RowRoundTrip` and
  `ParseQuotedRow`.
- Escaping is tied to restoring (`EscapeRestore`).
- Each loop is tied to a reference definition stated without the loop
  (`RowText`, `Document`, `Request`, `Statements`).
- The whole export is tied to the whole import (`ExportImport`).

The outside world is passed in as parameters:

- An export takes whether the file could be opened for writing, and the
  query's records, or `None` when the query failed. Its result is the file
  afterwards: `None` when it was left untouched, otherwise its new text.
- An import takes `files`, which maps a path to the file's text, or to
  `None` when the file cannot be opened.
- It also takes `exec`, which says whether a statement succeeds given the
  statements run before it. The import returns its verdict and the
  statements it ran, in order.

Three consequences of the code are worth knowing:

- A newline is escaped only in a value that also holds a comma. A value with
  a newline and no comma is written with a real newline. The record is then
  read back as more than one line, at least one more than the value has
  newlines (`CsvImport.NewlineSplitsRecord`; for `x`, newline, `y`, the lines
  are `"x` and `y"`, `CsvImport.NewlineWithoutComma`). So a newline survives
  export and import only in a value that also holds a comma.
- Quotes inside values are never doubled on export. The parser does read
  doubled quotes (`CsvParse.DoubledQuote`), so a value such as `a""b` is
  read back as `a"b` (`CsvExport.QuotesNotDoubled`). The round trips are
  proved only for values without quotes; some values with quotes still come
  back whole, but not all of them.
- `QChar::isSpace` is given in full in `Strings.IsSpace`, so trimming removes
  exactly what Qt removes.

## Model

| member | source | states |
|---|---|---|
| Strings.Trim | PaperBlossoms/src/dataaccesslayer.cpp:1780 | a trimmed field is no longer than the text and neither starts nor ends with white space |
| Strings.TrimIsSlice | PaperBlossoms/src/dataaccesslayer.cpp:1827 | a trimmed field is the contiguous part of the text that starts where the leading white space ends |
| Strings.TrimRemovesSpaces | PaperBlossoms/src/dataaccesslayer.cpp:1827 | everything trimming removes, before and after the kept part, is white space |
| Strings.TrimSpaces | PaperBlossoms/src/dataaccesslayer.cpp:1780 | trimming white space, then a value that neither starts nor ends with white space, then white space, gives back exactly that value |
| Strings.JoinContains | PaperBlossoms/src/dataaccesslayer.cpp:1646-1649 | a character that is not the separator occurs in the joined line exactly when some cell holds it |
| Strings.SplitJoin | PaperBlossoms/src/dataaccesslayer.cpp:1866 | splitting a text at newlines and joining the pieces back gives the text again |
| Strings.SplitTerminated | PaperBlossoms/src/dataaccesslayer.cpp:1651 | splitting lines that each end in a newline gives the lines back, plus one empty piece after the last newline |
| Strings.SpaceCharacters | PaperBlossoms/src/dataaccesslayer.cpp:1780 | the white space `trimmed` removes includes space, tab, newline and carriage return, and never a comma, a quote, `%`, a digit or an ASCII letter |
| CsvParse.ScanFields | PaperBlossoms/src/dataaccesslayer.cpp:1765-1827 | the scanner saves at most one more field than there are characters, nothing for empty input and no pending value, and every saved field has no white space at either end |
| CsvParse.ParseFields | PaperBlossoms/src/dataaccesslayer.cpp:1763-1840 | a line yields at most one more field than it has characters, and an empty line yields none |
| CsvParse.Unquote | PaperBlossoms/src/dataaccesslayer.cpp:1831-1837 | a field not starting with a quote is kept; otherwise the result is the field after its first character, shortened by one more exactly when the field also ends in a quote, so at most one leading and one trailing quote go |
| CsvParse.ParseWithoutQuotes | PaperBlossoms/src/dataaccesslayer.cpp:1769-1793 | a line without quotes parses to its comma-separated pieces, each trimmed, with the last piece omitted exactly when it is empty before trimming |
| CsvParse.ScanNoQuotes | PaperBlossoms/src/dataaccesslayer.cpp:1774-1793 | scanning quote-free input in the Normal state saves the trimmed comma-separated pieces of the pending value followed by the input |
| CsvParse.EmptyLine | PaperBlossoms/src/dataaccesslayer.cpp:1826-1827 | an empty line has no fields, because an empty last value is not saved |
| CsvParse.TrailingComma | PaperBlossoms/src/dataaccesslayer.cpp:1776-1827 | the empty piece after a final comma is dropped: `a,b,` gives the two fields `a` and `b` |
| CsvParse.ScanQuotedRegion | PaperBlossoms/src/dataaccesslayer.cpp:1797-1822 | inside quotes a comma is ordinary, a doubled quote adds one quote and consumes both, and the quote that closes the region is kept and returns to Normal |
| CsvParse.DoubledQuote | PaperBlossoms/src/dataaccesslayer.cpp:1797-1822 | the line `"a""b",c` parses to the two fields `a"b` and `c` |
| CsvParse.TrailingQuoteKept | PaperBlossoms/src/dataaccesslayer.cpp:1829-1837 | a quote that does not open a field is kept: `a"` parses to `a"` |
| CsvParse.QuotedWhitespaceSurvives | PaperBlossoms/src/dataaccesslayer.cpp:1827-1837 | white space around a quoted value is trimmed away, while the value inside the quotes comes back whole, because trimming happens before unquoting |
| CsvParse.UnquoteQuoted | PaperBlossoms/src/dataaccesslayer.cpp:1831-1837 | unquoting removes exactly the one pair of quotes a value was wrapped in, whatever the value holds |
| CsvParse.ParseQuotedRow | PaperBlossoms/src/dataaccesslayer.cpp:1763-1840 | quote-free values, each wrapped in quotes and separated by commas, parse back to exactly those values, empty values and values with commas included |
| CsvEscape.ReplaceNewlines | PaperBlossoms/src/dataaccesslayer.cpp:1617 | no newline is left after replacement, and a text without newlines is unchanged |
| CsvEscape.ReplaceNewlinesCounts | PaperBlossoms/src/dataaccesslayer.cpp:1617 | each newline lengthens the text by two characters, and the number of commas is unchanged |
| CsvEscape.ReplaceNewlinesOther | PaperBlossoms/src/dataaccesslayer.cpp:1617 | a character other than newline, `%`, `0` and `A` occurs in the replaced text exactly when it occurs in the text |
| CsvEscape.RestoreNewlines | PaperBlossoms/src/dataaccesslayer.cpp:1875 | a text without `%0A` is unchanged, and the first character is kept unless the text starts with `%0A` |
| CsvEscape.RestoreLeavesNone | PaperBlossoms/src/dataaccesslayer.cpp:1875 | no `%0A` is left in a statement once it has been restored |
| CsvEscape.RestoreAppend | PaperBlossoms/src/dataaccesslayer.cpp:1875 | restoring works piece by piece when no `%0A` can straddle the seam between the pieces |
| CsvEscape.RestoreReplaced | PaperBlossoms/src/dataaccesslayer.cpp:1875 | restoring undoes the newline replacement for any text without a `%0A` of its own |
| CsvEscape.EscapeCsv | PaperBlossoms/src/dataaccesslayer.cpp:1613-1618 | a value without a comma is returned unchanged, newlines included, and a value with a comma comes back without any newline |
| CsvEscape.EscapeCounts | PaperBlossoms/src/dataaccesslayer.cpp:1613-1618 | escaping keeps every comma and lengthens a comma-holding value by two characters per newline |
| CsvEscape.EscapeIdempotent | PaperBlossoms/src/dataaccesslayer.cpp:1613-1618 | escaping an escaped value changes nothing |
| CsvEscape.EscapeRestore | PaperBlossoms/src/dataaccesslayer.cpp:1613-1618 | restoring `%0A` after escaping gives back any value that held no `%0A` of its own |
| CsvExport.WriteRow | PaperBlossoms/src/dataaccesslayer.cpp:1644-1652 | the record loop writes the cells in column order, with a comma before every cell but the first and a newline after the last; a record with no columns is a lone newline |
| CsvExport.ExportCsv | PaperBlossoms/src/dataaccesslayer.cpp:1620-1654 | the export succeeds exactly when the file opens and the query runs; a file that cannot be opened is left untouched, a failed query leaves the already opened file empty, and on success the file holds every record's line in order |
| CsvExport.CellIsQuotedEscape | PaperBlossoms/src/dataaccesslayer.cpp:1649 | escaping a quoted value equals quoting the escaped value, because the added quotes are neither commas nor newlines |
| CsvExport.CellNewline | PaperBlossoms/src/dataaccesslayer.cpp:1649 | a written cell holds a newline exactly when its value holds a newline and no comma |
| CsvExport.RowLineSingleLine | PaperBlossoms/src/dataaccesslayer.cpp:1675-1683 | a record stays on one line exactly when every value holding a newline also holds a comma |
| CsvExport.ParseRowLine | PaperBlossoms/src/dataaccesslayer.cpp:1763-1840 | parsing the line written for quote-free values gives each value escaped |
| CsvExport.QuotesNotDoubled | PaperBlossoms/src/dataaccesslayer.cpp:1644-1651 | a quote in a value is written as it is, so a value with two quotes in a row, such as `a""b`, is read back with a single quote, `a"b` |
| CsvExport.RowRoundTrip | PaperBlossoms/src/dataaccesslayer.cpp:1763-1840 | values without quotes and newlines are written and parsed back exactly, empty values and values with commas included |
| CsvImport.ImportPath | PaperBlossoms/src/dataaccesslayer.cpp:1847-1852 | with a directory the file is the directory, a `/`, the table name and `.csv`; otherwise it is the path as given |
| CsvImport.ReadLines | PaperBlossoms/src/dataaccesslayer.cpp:1866 | no line read from the file holds a newline |
| CsvImport.Chop | PaperBlossoms/src/dataaccesslayer.cpp:1873 | removing the last n characters keeps the leading part of length size minus n, or leaves nothing when the text is no longer than n |
| CsvImport.ChopRequest | PaperBlossoms/src/dataaccesslayer.cpp:1873-1874 | the removed character is the trailing comma when there are fields, and the opening parenthesis when there are none |
| CsvImport.AppendedJoin | PaperBlossoms/src/dataaccesslayer.cpp:1869-1872 | appending every quoted field followed by a comma is the comma-joined quoted fields plus one trailing comma |
| CsvImport.BuildRequest | PaperBlossoms/src/dataaccesslayer.cpp:1864-1874 | the request is `INSERT INTO t VALUES(`, the quoted fields joined by commas, and `);`; for no fields it is `INSERT INTO t VALUES);` |
| CsvImport.RestoreRequest | PaperBlossoms/src/dataaccesslayer.cpp:1875 | the statement run for a line with fields restores `%0A` in the table name and in each field separately, never across a quote or comma |
| CsvImport.RestoreQuotedRow | PaperBlossoms/src/dataaccesslayer.cpp:1875 | restoring a row of quoted, comma-separated values restores each value on its own |
| CsvImport.ImportCsv | PaperBlossoms/src/dataaccesslayer.cpp:1844-1887 | an unopenable file gives false and runs nothing; otherwise one `DELETE` and then one `INSERT` per line run in order, with no early exit, and the result is true exactly when every one of them succeeded |
| CsvImport.ExecSnoc | PaperBlossoms/src/dataaccesslayer.cpp:1875-1879 | after one more statement, all have succeeded exactly when all earlier ones did and the new one did |
| CsvImport.EmptyFile | PaperBlossoms/src/dataaccesslayer.cpp:1854-1862 | an empty file empties the table and inserts nothing |
| CsvImport.DocumentLines | PaperBlossoms/src/dataaccesslayer.cpp:1860-1866 | reading the written file gives back one line per record, when no record's line holds a newline |
| CsvImport.NewlineWithoutComma | PaperBlossoms/src/dataaccesslayer.cpp:1613-1618 | the value `x`, newline, `y` is written with a real newline and read back as the two lines `"x` and `y"` |
| CsvImport.NewlineSplitsRecord | PaperBlossoms/src/dataaccesslayer.cpp:1613-1618 | a one-value record whose value has no comma is read back as at least one line more than the value has newlines, so as more than one line once it holds a newline |
| CsvImport.ImportedRow | PaperBlossoms/src/dataaccesslayer.cpp:1864-1875 | for values without quotes or `%0A`, parsing a record's written line as a single line and building its statement gives the statement the values themselves give, commas and newlines included; the file holds that single line only when every value with a newline also holds a comma |
| CsvImport.ExportImport | PaperBlossoms/src/dataaccesslayer.cpp:1844-1887 | exporting a table and importing the file runs the `DELETE` and then, record by record, the statement the record's own values give, as long as no value holds a quote or `%0A` and every value with a newline also holds a comma |

## Left out

- File opening and `QTextStream` are not modelled. The file is a text, and being unable to open it is a `None` or `false` parameter.
- Text encoding is not modelled. The exporters write UTF-8, but the import's stream sets no codec, so it decodes with the locale's codec; where the locale is not UTF-8, non-ASCII text written by an export can come back altered. Qt strings are UTF-16, while the model's characters are Unicode scalar values, and surrogate pairs are not modelled.
- Line ends are modelled in their Unix form. Both exporters open the file with `QFile::Text`, which on Windows writes every `\n` as `\r\n`, raw newlines inside comma-free values included, so `CsvExport.Document` is the Unix form of the file. `readLine` ends a line at `\n` or `\r\n` and drops either, so the import sees the same lines on both systems; `CsvImport.ReadLines` splits on `\n` only.
- SQL execution is not modelled. The database is the `exec` oracle, and table contents are not modelled, because their behaviour is SQLite's.
- The `select * from` query of `tableToCsv` and the query text of `queryToCsv` are not modelled. Their records are a parameter.
- The file path is not modelled on the export side. `CsvImport.ImportPath` gives the same directory-or-file rule that `tableToCsv` uses.
- `qDebug` logging is not modelled. It has no effect on results.
- `parseCSV` guards the Quote branch with `i < string.size()`. The loop condition already guarantees this, so the model leaves the check out.
- The lookup queries, the constructor, `translate`, `untranslate`, `exportTranslatableCSV` and `getLastExecutedQuery` are not modelled. They are SQL against a schema outside this model, or I/O and UI.
- Quoting of table names is not modelled. The table name is an opaque string pasted into the statement text, as the source does.

=== FILE: csv_escape.dfy ===
/**
 The newline escaping of the CSV files: `DataAccessLayer::escapedCSV` writes
 a newline as the three characters `%0A`, but only in a value that holds a
 comma, and `importCSV` turns every `%0A` of a statement back into a
 newline before running it.
 */
module CsvEscape {
  import opened Strings

  /** The text a newline is written as. */
  const EncodedNewline: string := "%0A"

  /** `s` holds the text `%0A` somewhere. */
  predicate ContainsEncoded(s: string)
    decreases |s|
  {
    |s| >= 3 && (s[..3] == EncodedNewline || ContainsEncoded(s[1..]))
  }

  /** `QString::replace("\n", "%0A")`: every newline written as `%0A`. */
  function ReplaceNewlines(s: string): (r: string)
    ensures '\n' !in r
    ensures '\n' !in s ==> r == s
    decreases |s|
  {
    if |s| == 0 then []
    else if s[0] == '\n' then EncodedNewline + ReplaceNewlines(s[1..])
    else [s[0]] + ReplaceNewlines(s[1..])
  }

  /** Each newline grows the text by two characters, and commas are kept. */
  lemma {:induction false} ReplaceNewlinesCounts(s: string)
    ensures |ReplaceNewlines(s)| == |s| + 2 * multiset(s)['\n']
    ensures multiset(ReplaceNewlines(s))[','] == multiset(s)[',']
    decreases |s|
  {
    if |s| > 0 {
      ReplaceNewlinesCounts(s[1..]);
      assert s == [s[0]] + s[1..];
    }
  }

  /** Escaping changes no character other than the newline, and adds only
      `%`, `0` and `A`. */
  lemma {:induction false} ReplaceNewlinesOther(s: string, c: char)
    requires c != '\n' && c != '%' && c != '0' && c != 'A'
    ensures c in ReplaceNewlines(s) <==> c in s
    decreases |s|
  {
    if |s| > 0 {
      ReplaceNewlinesOther(s[1..], c);
      assert s == [s[0]] + s[1..];
    }
  }

  /** A character other than a newline is kept at the front. */
  lemma ReplaceNewlinesTail(s: string)
    requires |s| > 0 && s[0] != '\n'
    ensures ReplaceNewlines(s) == [s[0]] + ReplaceNewlines(s[1..])
  {
  }

  /** An escaped text starts with a character other than `%` only when
      the text itself starts with it. */
  lemma ReplacedHead(s: string, c: char)
    requires c != '%'
    ensures |ReplaceNewlines(s)| > 0 && ReplaceNewlines(s)[0] == c ==> |s| > 0 && s[0] == c
  {
  }

  /** An escaped text starts with `0A` only when the text does. */
  lemma EscapedZeroA(t: string)
    ensures var e := ReplaceNewlines(t);
      |e| >= 2 && e[0] == '0' && e[1] == 'A' ==> |t| >= 2 && t[0] == '0' && t[1] == 'A'
  {
    var e := ReplaceNewlines(t);
    if |e| >= 2 && e[0] == '0' && e[1] == 'A' {
      ReplacedHead(t, '0');
      ReplaceNewlinesTail(t);
      ReplacedHead(t[1..], 'A');
    }
  }

  /** Escaping a text that does not start with a newline produces a
      leading `%0A` only when the text already started with one. */
  lemma EscapedStart(s: string)
    requires |s| > 0 && s[0] != '\n'
    ensures var e := ReplaceNewlines(s);
      |e| >= 3 && e[..3] == EncodedNewline ==> |s| >= 3 && s[..3] == EncodedNewline
  {
    var e := ReplaceNewlines(s);
    if |e| >= 3 && e[..3] == EncodedNewline {
      assert e[1] == '0' && e[2] == 'A';
      ReplaceNewlinesTail(s);
      EscapedZeroA(s[1..]);
      assert s[..3] == EncodedNewline;
    }
  }

  /** Escaping distributes over concatenation. */
  lemma {:induction false} ReplaceNewlinesAppend(a: string, b: string)
    ensures ReplaceNewlines(a + b) == ReplaceNewlines(a) + ReplaceNewlines(b)
    decreases |a|
  {
    if |a| == 0 {
      assert a + b == b;
    } else {
      assert (a + b)[0] == a[0];
      assert (a + b)[1..] == a[1..] + b;
      ReplaceNewlinesAppend(a[1..], b);
    }
  }

  /** `QString::replace("%0A", "\n")`: scanning left to right, every `%0A`
      becomes a newline. A text without `%0A` is unchanged. */
  function RestoreNewlines(s: string): (r: string)
    ensures !ContainsEncoded(s) ==> r == s
    ensures |s| > 0 ==> |r| > 0 && (r[0] == s[0] || (r[0] == '\n' && |s| >= 3 && s[..3] == EncodedNewline))
    decreases |s|
  {
    if |s| >= 3 && s[..3] == EncodedNewline then "\n" + RestoreNewlines(s[3..])
    else if |s| == 0 then []
    else [s[0]] + RestoreNewlines(s[1..])
  }

  /** No `%0A` is left after restoring: a `%0A` produced by the
      replacement would have been replaced itself. */
  lemma {:induction false} RestoreLeavesNone(s: string)
    ensures !ContainsEncoded(RestoreNewlines(s))
    decreases |s|
  {
    var r := RestoreNewlines(s);
    if |s| >= 3 && s[..3] == EncodedNewline {
      var rest := RestoreNewlines(s[3..]);
      RestoreLeavesNone(s[3..]);
      assert r == "\n" + rest && r[1..] == rest;
    } else if |s| > 0 {
      var rest := RestoreNewlines(s[1..]);
      RestoreLeavesNone(s[1..]);
      assert r == [s[0]] + rest && r[1..] == rest;
    }
  }

  /** Restoring undoes escaping: a text without `%0A` of its own comes back
      unchanged once its newlines are written as `%0A` and read back. */
  lemma {:induction false} RestoreReplaced(s: string)
    requires !ContainsEncoded(s)
    ensures RestoreNewlines(ReplaceNewlines(s)) == s
    decreases |s|
  {
    if |s| > 0 {
      var e := ReplaceNewlines(s);
      var rest := ReplaceNewlines(s[1..]);
      assert !ContainsEncoded(s[1..]);
      RestoreReplaced(s[1..]);
      if s[0] == '\n' {
        assert e == EncodedNewline + rest;
        assert e[..3] == EncodedNewline && e[3..] == rest;
      } else {
        assert e == [s[0]] + rest;
        EscapedStart(s);
        assert e[1..] == rest;
      }
    }
  }

  /** When the left part does not start with `%0A`, neither does the
      whole, under the seam condition of `RestoreAppend`. */
  lemma NoEncodedAcrossSeam(a: string, b: string)
    requires '%' !in a || b == [] || (b[0] != '0' && b[0] != 'A')
    requires |a| > 0 && !(|a| >= 3 && a[..3] == EncodedNewline)
    ensures !(|a + b| >= 3 && (a + b)[..3] == EncodedNewline)
  {
    if |a + b| >= 3 {
      assert (a + b)[0] == a[0];
      if |a| == 1 {
        assert (a + b)[1] == b[0];
      } else if |a| == 2 {
        assert (a + b)[1] == a[1];
        assert (a + b)[2] == b[0];
      } else {
        assert (a + b)[..3] == a[..3];
      }
    }
  }

  /** Restoring is done piecewise when no `%0A` can straddle the seam: the
      left part has no `%`, or the right part does not start with `0` or
      `A`. */
  lemma {:induction false} RestoreAppend(a: string, b: string)
    requires '%' !in a || b == [] || (b[0] != '0' && b[0] != 'A')
    ensures RestoreNewlines(a + b) == RestoreNewlines(a) + RestoreNewlines(b)
    decreases |a|
  {
    if |a| == 0 {
      assert a + b == b;
    } else if |a| >= 3 && a[..3] == EncodedNewline {
      assert (a + b)[..3] == a[..3];
      assert (a + b)[3..] == a[3..] + b;
      RestoreAppend(a[3..], b);
    } else {
      NoEncodedAcrossSeam(a, b);
      assert (a + b)[0] == a[0];
      assert (a + b)[1..] == a[1..] + b;
      RestoreAppend(a[1..], b);
    }
  }

  /** `escapedCSV`: a value without a comma is returned as it is, newlines
      included; a value with a comma has every newline written as `%0A`,
      so it holds no newline. */
  function EscapeCsv(s: string): (r: string)
    ensures ',' !in s ==> r == s
    ensures ',' in s ==> '\n' !in r
  {
    if ',' !in s then s else ReplaceNewlines(s)
  }

  /** Escaping keeps every comma and grows the value by two characters per
      newline when it escapes at all. */
  lemma EscapeCounts(s: string)
    ensures ',' in s ==> |EscapeCsv(s)| == |s| + 2 * multiset(s)['\n']
    ensures multiset(EscapeCsv(s))[','] == multiset(s)[',']
  {
    ReplaceNewlinesCounts(s);
  }

  /** Escaping twice is escaping once. */
  lemma EscapeIdempotent(s: string)
    ensures EscapeCsv(EscapeCsv(s)) == EscapeCsv(s)
  {
    if ',' in s {
      var r := EscapeCsv(s);
      EscapeCounts(s);
      assert multiset(r)[','] > 0;
      assert ',' in r;
    }
  }

  /** Reading back an escaped value: restoring `%0A` gives the value again,
      provided it held no `%0A` of its own. */
  lemma {:induction false} EscapeRestore(s: string)
    requires !ContainsEncoded(s)
    ensures RestoreNewlines(EscapeCsv(s)) == s
  {
    if ',' in s {
      RestoreReplaced(s);
    }
  }
}

=== FILE: csv_export.dfy ===
/**
 The export side of the CSV files, shared by `DataAccessLayer::tableToCsv`
 and `DataAccessLayer::queryToCsv`: every value of a record is wrapped in
 double quotes and passed through `escapedCSV`, the cells are separated by
 commas, and the record ends with a newline. No header line is written.
 */
module CsvExport {
  import opened Strings
  import opened CsvEscape
  import opened CsvParse

  /** One cell as it is written: the value wrapped in quotes, then escaped. */
  function Cell(v: string): string
  {
    EscapeCsv(Quoted(v))
  }

  function Cells(vs: seq<string>): seq<string>
  {
    seq(|vs|, i requires 0 <= i < |vs| => Cell(vs[i]))
  }

  /** A record's line without its terminating newline. */
  function RowLine(vs: seq<string>): string
  {
    Join(",", Cells(vs))
  }

  /** A record as it is written to the file. */
  function RowText(vs: seq<string>): string
  {
    RowLine(vs) + "\n"
  }

  /** The values of a record, each escaped on its own. */
  function EscapedAll(vs: seq<string>): seq<string>
  {
    seq(|vs|, i requires 0 <= i < |vs| => EscapeCsv(vs[i]))
  }

  /** The line of every record, in order. */
  function RowLines(rows: seq<seq<string>>): seq<string>
  {
    if |rows| == 0 then [] else [RowLine(rows[0])] + RowLines(rows[1..])
  }

  lemma {:induction false} RowLinesAt(rows: seq<seq<string>>)
    ensures |RowLines(rows)| == |rows|
    ensures forall i :: 0 <= i < |rows| ==> RowLines(rows)[i] == RowLine(rows[i])
    decreases |rows|
  {
    if |rows| > 0 {
      var rest := RowLines(rows[1..]);
      RowLinesAt(rows[1..]);
      assert RowLines(rows) == [RowLine(rows[0])] + rest;
      forall i | 1 <= i < |rows|
        ensures RowLines(rows)[i] == RowLine(rows[i])
      {
        assert RowLines(rows)[i] == rest[i - 1];
        assert rows[1..][i - 1] == rows[i];
      }
    }
  }

  lemma {:induction false} RowLinesSnoc(rows: seq<seq<string>>, row: seq<string>)
    ensures RowLines(rows + [row]) == RowLines(rows) + [RowLine(row)]
    decreases |rows|
  {
    if |rows| == 0 {
      assert (rows + [row])[1..] == [];
    } else {
      assert (rows + [row])[0] == rows[0];
      assert (rows + [row])[1..] == rows[1..] + [row];
      RowLinesSnoc(rows[1..], row);
    }
  }

  /** The text of a whole export: every record's line, each followed by a
      newline. */
  function Document(rows: seq<seq<string>>): string
  {
    Terminated(RowLines(rows), '\n')
  }

  /** One step of writing a record: the line so far, a comma unless it is
      the first cell, and the next cell. */
  lemma {:induction false} RowLineStep(record: seq<string>, i: nat)
    requires i < |record|
    ensures RowLine(record[..i + 1])
         == if i > 0 then RowLine(record[..i]) + "," + Cell(record[i]) else Cell(record[i])
  {
    var prefix := record[..i];
    assert record[..i + 1] == prefix + [record[i]];
    assert Cells(prefix + [record[i]]) == Cells(prefix) + [Cell(record[i])];
    JoinSnoc(",", Cells(prefix), Cell(record[i]));
  }

  /** Writing one more record appends its text to the export. */
  lemma DocumentStep(rows: seq<seq<string>>, n: nat)
    requires n < |rows|
    ensures Document(rows[..n + 1]) == Document(rows[..n]) + RowText(rows[n])
  {
    assert rows[..n + 1] == rows[..n] + [rows[n]];
    RowLinesSnoc(rows[..n], rows[n]);
    TerminatedSnoc(RowLines(rows[..n]), RowLine(rows[n]), '\n');
  }

  /** The loop body of the exporters: a comma before every cell but the
      first, the cells in column order, and a newline after the last; a
      record without columns is written as a lone newline. */
  method WriteRow(record: seq<string>) returns (out: string)
    ensures out == RowText(record)
    ensures |record| == 0 ==> out == "\n"
  {
    out := [];
    var i := 0;
    while i < |record|
      invariant 0 <= i <= |record|
      invariant out == RowLine(record[..i])
    {
      var cell := Cell(record[i]);
      RowLineStep(record, i);
      out := if i > 0 then out + "," + cell else cell;
      i := i + 1;
    }
    assert record[..i] == record;
    out := out + "\n";
  }

  /** An export. The file is opened for writing first, which empties it,
      and the query runs after that. The resulting file is `None` when it
      could not be opened and so keeps its old contents, `Some([])` when
      the query failed after the file was emptied, and otherwise every
      result record written in order. Only the last case reports success. */
  method ExportCsv(writable: bool, rows: Option<seq<seq<string>>>) returns (ok: bool, file: Option<string>)
    ensures ok <==> writable && rows.Some?
    ensures !writable ==> file == None
    ensures writable && rows.None? ==> file == Some([])
    ensures ok ==> file == Some(Document(rows.value))
  {
    if !writable {
      return false, None;
    }
    if rows.None? {
      return false, Some([]);
    }
    var records := rows.value;
    var text := [];
    var n := 0;
    while n < |records|
      invariant 0 <= n <= |records|
      invariant text == Document(records[..n])
    {
      var line := WriteRow(records[n]);
      DocumentStep(records, n);
      text := text + line;
      n := n + 1;
    }
    assert records[..n] == records;
    ok, file := true, Some(text);
  }

  /** A cell is the escaped value wrapped in quotes: the quotes added before
      escaping are neither commas nor newlines, so they change nothing about
      whether or how the value is escaped. */
  lemma {:induction false} CellIsQuotedEscape(v: string)
    ensures Cell(v) == Quoted(EscapeCsv(v))
  {
    var q := Quoted(v);
    assert q == "\"" + v + "\"";
    assert ',' in q <==> ',' in v by {
      assert forall k :: 0 <= k < |v| ==> q[k + 1] == v[k];
      if ',' in q {
        var k :| 0 <= k < |q| && q[k] == ',';
        assert v[k - 1] == ',';
      }
    }
    if ',' in v {
      ReplaceNewlinesAppend("\"" + v, "\"");
      ReplaceNewlinesAppend("\"", v);
    }
  }

  /** An escaped value holds a quote only if the value did. */
  lemma EscapeKeepsNoQuote(v: string)
    requires '"' !in v
    ensures '"' !in EscapeCsv(v)
  {
    ReplaceNewlinesOther(v, '"');
  }

  /** Reading back an exported line: for values without quotes, parsing the
      line gives each value escaped, commas inside values and empty values
      included. */
  lemma {:induction false} ParseRowLine(vs: seq<string>)
    requires forall i :: 0 <= i < |vs| ==> '"' !in vs[i]
    ensures ParseCsv(RowLine(vs)) == EscapedAll(vs)
  {
    var es := EscapedAll(vs);
    forall i | 0 <= i < |vs|
      ensures Cells(vs)[i] == QuotedAll(es)[i] && '"' !in es[i]
    {
      CellIsQuotedEscape(vs[i]);
      EscapeKeepsNoQuote(vs[i]);
    }
    assert Cells(vs) == QuotedAll(es);
    ParseQuotedRow(es);
  }

  /** The round trip of the CSV files: values without quotes and newlines
      are exported and parsed back exactly. */
  lemma {:induction false} RowRoundTrip(vs: seq<string>)
    requires forall i :: 0 <= i < |vs| ==> '"' !in vs[i] && '\n' !in vs[i]
    ensures ParseCsv(RowLine(vs)) == vs
  {
    ParseRowLine(vs);
    assert EscapedAll(vs) == vs;
  }

  /** Quotes are not doubled on export, so a doubled quote in a value comes
      back as a single one: `a""b` is written as `"a""b"` and read as `a"b`. */
  lemma {:induction false} QuotesNotDoubled(a: char, b: char)
    requires Plain(a)
    requires Plain(b)
    ensures ParseCsv(RowLine([[a, '"', '"', b]])) == [[a, '"', b]]
  {
    var v := [a, '"', '"', b];
    var line := ['"', a, '"', '"', b, '"'];
    assert ',' !in line;
    assert Quoted(v) == line;
    assert Cells([v]) == [line];
    assert RowLine([v]) == line;
    DoubledQuoteAlone(a, b);
    var f := ['"', a, '"', b, '"'];
    assert f[1..][..3] == [a, '"', b];
  }

  /** A cell holds a newline exactly when its value holds a newline and no
      comma: only values with a comma have their newlines escaped. */
  lemma CellNewline(v: string)
    ensures '\n' in Cell(v) <==> '\n' in v && ',' !in v
  {
    CellIsQuotedEscape(v);
    var e := EscapeCsv(v);
    assert Quoted(e) == "\"" + e + "\"";
    assert '\n' in Quoted(e) <==> '\n' in e by {
      assert forall k :: 0 <= k < |e| ==> Quoted(e)[k + 1] == e[k];
      if '\n' in Quoted(e) {
        var k :| 0 <= k < |Quoted(e)| && Quoted(e)[k] == '\n';
        assert e[k - 1] == '\n';
      }
    }
  }

  /** An exported record stays on one line exactly when every value that
      holds a newline also holds a comma; a value with a newline and no
      comma is written with its newline as it is. */
  lemma {:induction false} RowLineSingleLine(vs: seq<string>)
    ensures '\n' !in RowLine(vs) <==> forall i :: 0 <= i < |vs| ==> ('\n' in vs[i] ==> ',' in vs[i])
  {
    JoinContains(",", Cells(vs), '\n');
    forall i | 0 <= i < |vs|
      ensures '\n' in Cells(vs)[i] <==> '\n' in vs[i] && ',' !in vs[i]
    {
      CellNewline(vs[i]);
    }
  }
}

=== FILE: csv_import.dfy ===
/**
 `DataAccessLayer::importCSV`: the table is emptied with a `DELETE`, then
 every line of the file is parsed and turned into one `INSERT` statement
 whose values are the parsed fields, each wrapped in double quotes; every
 `%0A` of the statement is turned back into a newline before it runs. The
 import reports success only when every statement succeeded.

 The file system and the database are parameters: `files` maps a path to
 the text of the file there, or to `None` when it cannot be opened, and
 `exec` says whether a statement succeeds given the statements run before
 it.
 */
module CsvImport {
  import opened Strings
  import opened CsvEscape
  import opened CsvParse
  import opened CsvExport

  /** The file an import reads: `<dir>/<table>.csv` when given a directory,
      otherwise the path itself. */
  function ImportPath(path: string, table: string, isDir: bool): (file: string)
    ensures !isDir ==> file == path
    ensures isDir ==> |file| == |path| + |table| + 5
    ensures isDir ==> file[..|path|] == path && file[|path|] == '/'
    ensures isDir ==> file[|path| + 1..|path| + 1 + |table|] == table && file[|file| - 4..] == ".csv"
  {
    if isDir then path + "/" + table + ".csv" else path
  }

  /** `QTextStream::readLine` until `atEnd`: the pieces between newlines,
      without a last empty piece after a final newline. */
  function ReadLines(text: string): (lines: seq<string>)
    ensures forall i :: 0 <= i < |lines| ==> '\n' !in lines[i]
  {
    DropEmptyLast(Split(text, '\n'))
  }

  function DeleteStatement(table: string): string
  {
    "DELETE FROM " + table
  }

  /** The text an `INSERT` statement starts with. */
  function InsertHead(table: string): string
  {
    "INSERT INTO " + table + " VALUES("
  }

  /** `QString::chop`: the last `n` characters removed, or nothing left when
      there are no more than `n`. */
  function Chop(s: string, n: nat): (r: string)
    ensures |s| <= n ==> r == []
    ensures |s| > n ==> |r| == |s| - n && r == s[..|r|]
  {
    if |s| <= n then [] else s[..|s| - n]
  }

  /** Every field wrapped in quotes and followed by a comma, as the request
      loop appends them. */
  function Appended(fields: seq<string>): string
  {
    if |fields| == 0 then []
    else Appended(fields[..|fields| - 1]) + Quoted(fields[|fields| - 1]) + ","
  }

  /** The request for one line, stated independently of the loop that
      builds it: the quoted fields separated by commas between `VALUES(`
      and `);`. With no fields, the comma removal takes the opening
      parenthesis instead, leaving `VALUES);`. */
  function Request(table: string, fields: seq<string>): string
  {
    if |fields| == 0 then "INSERT INTO " + table + " VALUES);"
    else InsertHead(table) + Join(",", QuotedAll(fields)) + ");"
  }

  /** The statement run for one line: the request with `%0A` restored to
      newlines. */
  function InsertStatement(table: string, fields: seq<string>): string
  {
    RestoreNewlines(Request(table, fields))
  }

  /** The `INSERT` statements for the given lines, one per line. */
  function Inserts(table: string, lines: seq<string>): seq<string>
  {
    if |lines| == 0 then []
    else [InsertStatement(table, ParseCsv(lines[0]))] + Inserts(table, lines[1..])
  }

  /** The statements of an import of a file with the given lines: the
      `DELETE`, then one `INSERT` per line. */
  function Statements(table: string, lines: seq<string>): seq<string>
  {
    [DeleteStatement(table)] + Inserts(table, lines)
  }

  lemma {:induction false} InsertsAt(table: string, lines: seq<string>)
    ensures |Inserts(table, lines)| == |lines|
    ensures forall i :: 0 <= i < |lines| ==> Inserts(table, lines)[i] == InsertStatement(table, ParseCsv(lines[i]))
    decreases |lines|
  {
    if |lines| > 0 {
      var rest := Inserts(table, lines[1..]);
      InsertsAt(table, lines[1..]);
      assert Inserts(table, lines) == [InsertStatement(table, ParseCsv(lines[0]))] + rest;
      forall i | 1 <= i < |lines|
        ensures Inserts(table, lines)[i] == InsertStatement(table, ParseCsv(lines[i]))
      {
        assert Inserts(table, lines)[i] == rest[i - 1];
        assert lines[1..][i - 1] == lines[i];
      }
    }
  }

  lemma {:induction false} InsertsSnoc(table: string, lines: seq<string>, line: string)
    ensures Inserts(table, lines + [line]) == Inserts(table, lines) + [InsertStatement(table, ParseCsv(line))]
    decreases |lines|
  {
    if |lines| == 0 {
      assert (lines + [line])[1..] == [];
    } else {
      assert (lines + [line])[0] == lines[0];
      assert (lines + [line])[1..] == lines[1..] + [line];
      InsertsSnoc(table, lines[1..], line);
    }
  }

  /** The comma after the last field is all that follows the joined fields. */
  lemma {:induction false} AppendedJoin(fields: seq<string>)
    requires |fields| > 0
    ensures Appended(fields) == Join(",", QuotedAll(fields)) + ","
    decreases |fields|
  {
    var n := |fields| - 1;
    var init := fields[..n];
    var last := Quoted(fields[n]);
    QuotedAllSnoc(fields, n);
    assert fields[..n + 1] == fields;
    JoinSnoc(",", QuotedAll(init), last);
    if n > 0 {
      AppendedJoin(init);
    } else {
      assert Appended(init) == [];
    }
  }

  lemma QuotedAllSnoc(fields: seq<string>, n: nat)
    requires n < |fields|
    ensures QuotedAll(fields[..n + 1]) == QuotedAll(fields[..n]) + [Quoted(fields[n])]
  {
  }

  lemma AppendedStep(head: string, fields: seq<string>, i: nat)
    requires i < |fields|
    ensures head + Appended(fields[..i + 1]) == head + Appended(fields[..i]) + Quoted(fields[i]) + ","
  {
    assert fields[..i + 1][..i] == fields[..i];
    assert Appended(fields[..i + 1]) == Appended(fields[..i]) + Quoted(fields[i]) + ",";
  }

  /** The request loop: every field quoted and followed by a comma, the last
      character removed, then `);` appended. */
  method BuildRequest(table: string, fields: seq<string>) returns (req: string)
    ensures req == Request(table, fields)
    ensures |fields| > 0 ==> req == InsertHead(table) + Join(",", QuotedAll(fields)) + ");"
    ensures |fields| == 0 ==> req == "INSERT INTO " + table + " VALUES);"
  {
    var head := InsertHead(table);
    req := head;
    var i := 0;
    while i < |fields|
      invariant 0 <= i <= |fields|
      invariant req == head + Appended(fields[..i])
    {
      AppendedStep(head, fields, i);
      req := req + Quoted(fields[i]);
      req := req + ",";
      i := i + 1;
    }
    assert fields[..i] == fields;
    ChopRequest(table, fields);
    req := Chop(req, 1);
    req := req + ");";
  }

  /** Removing the last character after the loop takes the trailing comma,
      or the opening parenthesis when there were no fields. */
  lemma ChopRequest(table: string, fields: seq<string>)
    ensures Chop(InsertHead(table) + Appended(fields), 1) + ");" == Request(table, fields)
  {
    var head := InsertHead(table);
    if |fields| == 0 {
      assert head + Appended(fields) == "INSERT INTO " + table + " VALUES" + "(";
    } else {
      AppendedJoin(fields);
      var joined := Join(",", QuotedAll(fields));
      assert head + Appended(fields) == (head + joined) + ",";
    }
  }

  /** An import. When the file cannot be opened nothing runs and the result
      is false. Otherwise the `DELETE` and one `INSERT` per line run in
      order, every one of them whatever the earlier ones did, and the
      result is true exactly when all of them succeeded. */
  method ImportCsv(path: string, table: string, isDir: bool,
                   files: string -> Option<string>,
                   exec: (seq<string>, string) -> bool)
    returns (ok: bool, trace: seq<string>)
    ensures files(ImportPath(path, table, isDir)).None? ==> !ok && trace == []
    ensures files(ImportPath(path, table, isDir)).Some? ==>
      trace == Statements(table, ReadLines(files(ImportPath(path, table, isDir)).value))
    ensures files(ImportPath(path, table, isDir)).Some? ==>
      (ok <==> forall i :: 0 <= i < |trace| ==> exec(trace[..i], trace[i]))
  {
    var success := true;
    var file := files(ImportPath(path, table, isDir));
    if file.None? {
      return !success, [];
    }
    var lines := ReadLines(file.value);
    var delete := DeleteStatement(table);
    success := success && exec([], delete);
    ExecSnoc([], delete, exec);
    assert [] + [delete] == [delete];
    assert lines[..0] == [];
    trace := [delete];
    var n := 0;
    while n < |lines|
      invariant 0 <= n <= |lines|
      invariant trace == [delete] + Inserts(table, lines[..n])
      invariant success <==> forall i :: 0 <= i < |trace| ==> exec(trace[..i], trace[i])
    {
      var fields := ParseCsv(lines[n]);
      var req := BuildRequest(table, fields);
      req := RestoreNewlines(req);
      var isSuccess := exec(trace, req);
      StatementsStep(table, lines, n, delete);
      ExecSnoc(trace, req, exec);
      success := success && isSuccess;
      trace := trace + [req];
      n := n + 1;
    }
    assert lines[..n] == lines;
    ok := success;
  }

  lemma StatementsStep(table: string, lines: seq<string>, n: nat, delete: string)
    requires n < |lines|
    ensures [delete] + Inserts(table, lines[..n + 1])
         == [delete] + Inserts(table, lines[..n]) + [InsertStatement(table, ParseCsv(lines[n]))]
  {
    assert lines[..n + 1] == lines[..n] + [lines[n]];
    InsertsSnoc(table, lines[..n], lines[n]);
  }

  /** Running one more statement: all succeed exactly when the earlier ones
      did and the new one does. */
  lemma ExecSnoc(trace: seq<string>, s: string, exec: (seq<string>, string) -> bool)
    ensures (forall i :: 0 <= i < |trace + [s]| ==> exec((trace + [s])[..i], (trace + [s])[i]))
        <==> (forall i :: 0 <= i < |trace| ==> exec(trace[..i], trace[i])) && exec(trace, s)
  {
    var t := trace + [s];
    assert t[..|trace|] == trace;
    assert forall i :: 0 <= i < |trace| ==> t[..i] == trace[..i] && t[i] == trace[i];
  }

  /** The lines of an export: one per record, when no record's line holds
      a newline of its own. */
  lemma DocumentLines(rows: seq<seq<string>>)
    requires forall i :: 0 <= i < |rows| ==> '\n' !in RowLine(rows[i])
    ensures ReadLines(Document(rows)) == RowLines(rows)
  {
    var lines := RowLines(rows);
    RowLinesAt(rows);
    SplitTerminated(lines, '\n');
    var parts := lines + [[]];
    assert parts[|parts| - 1] == [] && parts[..|parts| - 1] == lines;
  }

  /** An empty file: the table is emptied and nothing is inserted. */
  lemma EmptyFile(table: string)
    ensures Statements(table, ReadLines("")) == [DeleteStatement(table)]
  {
    assert ReadLines("") == [];
  }

  /** A newline in a value without a comma is written as it is, so the
      record comes back as two lines: `x` and `y` joined by a newline is
      read as the lines `"x` and `y"`. */
  lemma NewlineWithoutComma()
    ensures ReadLines(Document([["x\ny"]])) == ["\"x", "y\""]
  {
    var line := "\"x\ny\"";
    assert Cell("x\ny") == line;
    assert Cells(["x\ny"]) == [line];
    assert RowLine(["x\ny"]) == line;
    assert RowLines([["x\ny"]]) == [line];
    assert Document([["x\ny"]]) == line + "\n";
    assert line + "\n" == "\"x" + ("\n" + ("y\"" + ("\n" + [])));
    SplitAfterItem("y\"", [], '\n');
    SplitAfterItem("\"x", "y\"" + ("\n" + []), '\n');
  }

  /** There is one more piece than there are separators. */
  lemma {:induction false} SplitCount(s: string, sep: char)
    ensures |Split(s, sep)| == multiset(s)[sep] + 1
    decreases |s|
  {
    if |s| > 0 {
      SplitCount(s[1..], sep);
      assert s == [s[0]] + s[1..];
    }
  }

  /** The general case: a value without a comma is written with its
      newlines as they are, and the file is read back as at least one line
      per newline in the value plus one, so the record no longer comes back
      as one line once the value holds a newline. */
  lemma NewlineSplitsRecord(v: string)
    requires ',' !in v
    ensures |ReadLines(Document([[v]]))| >= multiset(v)['\n'] + 1
    ensures '\n' in v ==> |ReadLines(Document([[v]]))| > 1
  {
    var line := Quoted(v);
    assert ',' !in line by {
      assert line == "\"" + v + "\"";
    }
    assert Cell(v) == line;
    assert Cells([v]) == [line];
    assert RowLine([v]) == line;
    assert RowLines([[v]]) == [line];
    var text := Document([[v]]);
    assert Terminated([line], '\n') == line + ['\n'] + Terminated([], '\n');
    assert text == line + "\n";
    assert multiset(text)['\n'] == multiset(v)['\n'] + 1 by {
      assert text == "\"" + v + "\"" + "\n";
    }
    SplitCount(text, '\n');
  }

  /** Each value with `%0A` turned back into newlines. */
  function RestoredAll(vs: seq<string>): seq<string>
  {
    seq(|vs|, i requires 0 <= i < |vs| => RestoreNewlines(vs[i]))
  }

  /** Restoring leaves a text without `%` unchanged. */
  lemma {:induction false} RestoreNoPercent(s: string)
    requires '%' !in s
    ensures RestoreNewlines(s) == s
    decreases |s|
  {
    if |s| > 0 {
      RestoreNoPercent(s[1..]);
      assert s == [s[0]] + s[1..];
    }
  }

  lemma RestoreQuoted(e: string)
    ensures RestoreNewlines(Quoted(e)) == Quoted(RestoreNewlines(e))
  {
    RestoreAppend("\"", e + "\"");
    RestoreAppend(e, "\"");
    RestoreNoPercent("\"");
    assert "\"" + e + "\"" == "\"" + (e + "\"");
  }

  /** Restoring a row of quoted values restores each value: no `%0A` can
      straddle a quote or a comma. */
  lemma {:induction false} RestoreQuotedRow(es: seq<string>)
    ensures RestoreNewlines(Join(",", QuotedAll(es))) == Join(",", QuotedAll(RestoredAll(es)))
    decreases |es|
  {
    if |es| == 1 {
      RestoreQuoted(es[0]);
    } else if |es| > 1 {
      var q := Quoted(es[0]);
      var rest := Join(",", QuotedAll(es[1..]));
      assert QuotedAll(es)[1..] == QuotedAll(es[1..]);
      assert QuotedAll(RestoredAll(es))[1..] == QuotedAll(RestoredAll(es[1..]));
      assert Join(",", QuotedAll(es)) == q + ("," + rest);
      RestoreAppend(q, "," + rest);
      RestoreAppend(",", rest);
      RestoreNoPercent(",");
      RestoreQuoted(es[0]);
      RestoreQuotedRow(es[1..]);
    }
  }

  /** Restoring a statement assembled from fixed text without `%` and two
      variable parts: the fixed text is kept, each variable part is
      restored on its own. */
  lemma RestoreStatement(head: string, t: string, mid: string, j: string, tail: string)
    requires '%' !in head && '%' !in mid && '%' !in tail
    requires |mid| > 0 && mid[0] != '0' && mid[0] != 'A'
    requires |tail| > 0 && tail[0] != '0' && tail[0] != 'A'
    ensures RestoreNewlines(head + t + mid + j + tail)
         == head + RestoreNewlines(t) + mid + RestoreNewlines(j) + tail
  {
    var back := mid + (j + tail);
    assert head + t + mid + j + tail == head + (t + back);
    RestoreFixedLeft(head, t + back);
    assert back[0] == mid[0];
    RestoreAppend(t, back);
    RestoreFixedLeft(mid, j + tail);
    RestoreFixedRight(j, tail);
    RestoreAssoc(head, RestoreNewlines(t), mid, RestoreNewlines(j), tail);
  }

  lemma RestoreAssoc(a: string, b: string, c: string, d: string, e: string)
    ensures a + (b + (c + (d + e))) == a + b + c + d + e
  {
  }

  /** Fixed text without `%` in front is kept as it is. */
  lemma RestoreFixedLeft(head: string, x: string)
    requires '%' !in head
    ensures RestoreNewlines(head + x) == head + RestoreNewlines(x)
  {
    RestoreAppend(head, x);
    RestoreNoPercent(head);
  }

  /** Fixed text without `%` behind is kept as it is, provided it does not
      start with `0` or `A`. */
  lemma RestoreFixedRight(x: string, tail: string)
    requires '%' !in tail
    requires |tail| > 0 && tail[0] != '0' && tail[0] != 'A'
    ensures RestoreNewlines(x + tail) == RestoreNewlines(x) + tail
  {
    RestoreAppend(x, tail);
    RestoreNoPercent(tail);
  }

  /** The statement for a line with fields: the table name and every field
      with `%0A` restored, the fields quoted and comma-separated. */
  lemma RestoreRequest(table: string, fields: seq<string>)
    requires |fields| > 0
    ensures InsertStatement(table, fields)
         == "INSERT INTO " + RestoreNewlines(table) + " VALUES("
            + Join(",", QuotedAll(RestoredAll(fields))) + ");"
  {
    var j := Join(",", QuotedAll(fields));
    RestoreStatement("INSERT INTO ", table, " VALUES(", j, ");");
    RestoreQuotedRow(fields);
  }

  /** Values without quotes and without `%0A` come back unchanged. */
  lemma RestoreEscaped(vs: seq<string>)
    requires forall i :: 0 <= i < |vs| ==> !ContainsEncoded(vs[i])
    ensures RestoredAll(EscapedAll(vs)) == vs
    ensures RestoredAll(vs) == vs
  {
    forall i | 0 <= i < |vs|
      ensures RestoreNewlines(EscapeCsv(vs[i])) == vs[i]
    {
      EscapeRestore(vs[i]);
    }
  }

  /** Export then import of one record, its written line parsed as a single
      line: the statement run for it is the one its original values give,
      each value quoted exactly as it was, commas and newlines included,
      provided no value holds a quote or `%0A`. The file is read back as
      that one line only when every value holding a newline also holds a
      comma (`RowLineSingleLine`). */
  lemma ImportedRow(table: string, vs: seq<string>)
    requires forall i :: 0 <= i < |vs| ==> '"' !in vs[i] && !ContainsEncoded(vs[i])
    ensures InsertStatement(table, ParseCsv(RowLine(vs))) == InsertStatement(table, vs)
    ensures |vs| > 0 ==>
      (InsertStatement(table, ParseCsv(RowLine(vs)))
       == "INSERT INTO " + RestoreNewlines(table) + " VALUES(" + Join(",", QuotedAll(vs)) + ");")
  {
    ParseRowLine(vs);
    RestoreEscaped(vs);
    if |vs| > 0 {
      RestoreRequest(table, EscapedAll(vs));
      RestoreRequest(table, vs);
    } else {
      assert EscapedAll(vs) == vs;
    }
  }

  /** Export then import of a table: the import runs the `DELETE` and then,
      record by record, the statement the record's own values give, as
      long as no value holds a quote or `%0A` and every value holding a
      newline also holds a comma. */
  lemma ExportImport(table: string, rows: seq<seq<string>>)
    requires forall i, k :: 0 <= i < |rows| && 0 <= k < |rows[i]| ==>
      '"' !in rows[i][k] && !ContainsEncoded(rows[i][k]) && ('\n' in rows[i][k] ==> ',' in rows[i][k])
    ensures var s := Statements(table, ReadLines(Document(rows)));
      && |s| == |rows| + 1
      && s[0] == DeleteStatement(table)
      && forall i :: 0 <= i < |rows| ==> s[i + 1] == InsertStatement(table, rows[i])
  {
    ImportedRows(table, rows);
    DocumentLines(rows);
    InsertsOfRows(table, rows);
    var inserts := Inserts(table, RowLines(rows));
    var s := Statements(table, ReadLines(Document(rows)));
    assert s == [DeleteStatement(table)] + inserts;
    forall i | 0 <= i < |rows|
      ensures s[i + 1] == InsertStatement(table, rows[i])
    {
      assert s[i + 1] == inserts[i];
    }
  }

  /** The `INSERT`s for the lines of a table's records, when each record's
      line imports as the statement its own values give. */
  lemma InsertsOfRows(table: string, rows: seq<seq<string>>)
    requires forall i :: 0 <= i < |rows| ==>
      InsertStatement(table, ParseCsv(RowLine(rows[i]))) == InsertStatement(table, rows[i])
    ensures |Inserts(table, RowLines(rows))| == |rows|
    ensures forall i :: 0 <= i < |rows| ==> Inserts(table, RowLines(rows))[i] == InsertStatement(table, rows[i])
  {
    var lines := RowLines(rows);
    RowLinesAt(rows);
    InsertsAt(table, lines);
    forall i | 0 <= i < |rows|
      ensures Inserts(table, lines)[i] == InsertStatement(table, rows[i])
    {
      assert lines[i] == RowLine(rows[i]);
    }
  }

  /** Each record of such a table is written on one line and imported as
      the statement its own values give. */
  lemma ImportedRows(table: string, rows: seq<seq<string>>)
    requires forall i, k :: 0 <= i < |rows| && 0 <= k < |rows[i]| ==>
      '"' !in rows[i][k] && !ContainsEncoded(rows[i][k]) && ('\n' in rows[i][k] ==> ',' in rows[i][k])
    ensures forall i :: 0 <= i < |rows| ==> '\n' !in RowLine(rows[i])
    ensures forall i :: 0 <= i < |rows| ==>
      InsertStatement(table, ParseCsv(RowLine(rows[i]))) == InsertStatement(table, rows[i])
  {
    forall i | 0 <= i < |rows|
      ensures '\n' !in RowLine(rows[i])
      ensures InsertStatement(table, ParseCsv(RowLine(rows[i]))) == InsertStatement(table, rows[i])
    {
      RowLineSingleLine(rows[i]);
      ImportedRow(table, rows[i]);
    }
  }
}

=== FILE: csv_parse.dfy ===
/**
 `DataAccessLayer::parseCSV`: a two-state scanner over one line of text.

 In the Normal state a comma saves the trimmed field being built and starts a
 new one, and a double quote enters the Quote state; in the Quote state a
 doubled quote stands for one quote and a single quote returns to Normal.
 Quote characters are kept in the field while scanning, so trimming only
 removes white space outside them; a post-pass then strips one leading quote
 and, only when it did, one trailing quote.
 */
module CsvParse {
  import opened Strings

  datatype State = Normal | Quote

  /** The scanning loop: the fields saved from here on, when `rest` is the
      input not yet read and `value` the field being built. A comma in the
      Normal state saves the trimmed `value`; at the end a non-empty `value`
      is saved too, and an empty one is dropped, so a line that ends in a
      comma has no empty last field. */
  function Scan(rest: string, state: State, value: string): seq<string>
    decreases |rest|
  {
    if |rest| == 0 then
      if value != [] then [Trim(value)] else []
    else
      var c := rest[0];
      match state
      case Normal =>
        if c == ',' then [Trim(value)] + Scan(rest[1..], Normal, [])
        else if c == '"' then Scan(rest[1..], Quote, value + [c])
        else Scan(rest[1..], Normal, value + [c])
      case Quote =>
        if c == '"' then
          if |rest| > 1 && rest[1] == '"' then Scan(rest[2..], Quote, value + ['"'])
          else Scan(rest[1..], Normal, value + ['"'])
        else Scan(rest[1..], Quote, value + [c])
  }

  /** A text with no white space at either end, as `trimmed` leaves it. */
  predicate Trimmed(f: string) {
    f == [] || (!IsSpace(f[0]) && !IsSpace(f[|f| - 1]))
  }

  /** The post-pass on one field: a field that does not begin with a quote
      is left alone (so `a"` stays `a"`); otherwise the leading quote goes,
      and the last character goes too exactly when it is a quote as well. */
  function Unquote(f: string): (r: string)
    ensures (f == [] || f[0] != '"') ==> r == f
    ensures f != [] && f[0] == '"' ==> |f| - 2 <= |r| <= |f| - 1 && r == f[1..1 + |r|]
    ensures |r| + 2 == |f| <==> (|f| >= 2 && f[0] == '"' && f[|f| - 1] == '"')
  {
    if |f| >= 1 && f[0] == '"' then
      var g := f[1..];
      if |g| >= 1 && g[|g| - 1] == '"' then g[..|g| - 1] else g
    else f
  }

  /** `parseCSV`: scan the line, then unquote every field. */
  function ParseCsv(line: string): seq<string>
  {
    var raw := Scan(line, Normal, []);
    seq(|raw|, i requires 0 <= i < |raw| => Unquote(raw[i]))
  }

  /** The scanner saves at most one field per character read plus the one
      pending at the end, nothing when there is neither input nor a pending
      value, and only trimmed fields. */
  lemma {:induction false} ScanFields(rest: string, state: State, value: string)
    ensures var fields := Scan(rest, state, value);
      && |fields| <= |rest| + 1
      && (value == [] && |rest| == 0 ==> fields == [])
      && forall i :: 0 <= i < |fields| ==> Trimmed(fields[i])
    decreases |rest|
  {
    if |rest| == 0 {
      if value != [] {
        var t := Trim(value);
        assert Scan(rest, state, value) == [t];
        assert Trimmed(t);
      }
    } else {
      var c := rest[0];
      match state
      case Normal =>
        if c == ',' {
          ScanFields(rest[1..], Normal, []);
          var t := Trim(value);
          var tail := Scan(rest[1..], Normal, []);
          assert Scan(rest, state, value) == [t] + tail;
          assert Trimmed(t);
        } else if c == '"' {
          ScanFields(rest[1..], Quote, value + [c]);
        } else {
          ScanFields(rest[1..], Normal, value + [c]);
        }
      case Quote =>
        if c == '"' {
          if |rest| > 1 && rest[1] == '"' {
            ScanFields(rest[2..], Quote, value + ['"']);
          } else {
            ScanFields(rest[1..], Normal, value + ['"']);
          }
        } else {
          ScanFields(rest[1..], Quote, value + [c]);
        }
    }
  }

  /** A line yields at most one more field than it has characters, and an
      empty line yields none. */
  lemma ParseFields(line: string)
    ensures |ParseCsv(line)| <= |line| + 1
    ensures line == [] ==> ParseCsv(line) == []
  {
    ScanFields(line, Normal, []);
  }

  /** Parsing is scanning followed by unquoting each scanned field. */
  lemma ParseOfScan(line: string, raw: seq<string>)
    requires Scan(line, Normal, []) == raw
    ensures |ParseCsv(line)| == |raw|
    ensures forall i :: 0 <= i < |raw| ==> ParseCsv(line)[i] == Unquote(raw[i])
  {
  }

  /** The pieces of a split line with the last one dropped when it is empty. */
  function DropEmptyLast(parts: seq<string>): seq<string>
    requires |parts| >= 1
  {
    if parts[|parts| - 1] == [] then parts[..|parts| - 1] else parts
  }

  function TrimAll(xs: seq<string>): seq<string>
  {
    seq(|xs|, i requires 0 <= i < |xs| => Trim(xs[i]))
  }

  lemma TrimAllCons(x: string, xs: seq<string>)
    ensures TrimAll([x] + xs) == [Trim(x)] + TrimAll(xs)
  {
  }

  function QuotedAll(xs: seq<string>): seq<string>
  {
    seq(|xs|, i requires 0 <= i < |xs| => Quoted(xs[i]))
  }

  /** RFC 4180 escaping of a value: every quote doubled. */
  function DoubleQuotes(w: string): string
  {
    if |w| == 0 then []
    else if w[0] == '"' then "\"\"" + DoubleQuotes(w[1..])
    else [w[0]] + DoubleQuotes(w[1..])
  }

  lemma {:induction false} DoubleQuotesNone(w: string)
    requires '"' !in w
    ensures DoubleQuotes(w) == w
    decreases |w|
  {
    if |w| > 0 {
      DoubleQuotesNone(w[1..]);
      assert w == [w[0]] + w[1..];
    }
  }

  /** Characters that are neither a comma nor a quote are appended to the
      field being built in the Normal state. */
  lemma {:induction false} ScanPlain(s: string, rest: string, value: string)
    requires forall k :: 0 <= k < |s| ==> s[k] != ',' && s[k] != '"'
    ensures Scan(s + rest, Normal, value) == Scan(rest, Normal, value + s)
    decreases |s|
  {
    if |s| > 0 {
      assert (s + rest)[0] == s[0];
      assert (s + rest)[1..] == s[1..] + rest;
      ScanPlain(s[1..], rest, value + [s[0]]);
      assert value + [s[0]] + s[1..] == value + s;
    } else {
      assert s + rest == rest;
      assert value + s == value;
    }
  }

  /** The comma-separated pieces of a quote-free text, each trimmed, the
      last one dropped when it is empty. */
  function SavedPieces(text: string): seq<string>
  {
    TrimAll(DropEmptyLast(Split(text, ',')))
  }

  lemma NoQuotesEnd(value: string)
    requires ',' !in value
    ensures Scan([], Normal, value) == SavedPieces(value + [])
  {
    assert Split(value + [], ',') == [value] by {
      SplitPrefix(value, [], ',');
      assert value + [] == value;
    }
    if value == [] {
      assert SavedPieces(value + []) == [];
    } else {
      assert SavedPieces(value + []) == [Trim(value)];
    }
  }

  lemma NoQuotesComma(rest: string, value: string)
    requires |rest| > 0 && rest[0] == ',' && ',' !in value
    ensures SavedPieces(value + rest) == [Trim(value)] + SavedPieces([] + rest[1..])
  {
    var tail := Split(rest[1..], ',');
    var parts := Split(value + rest, ',');
    assert parts == [value] + tail by {
      SplitPrefix(value, rest, ',');
      assert Split(rest, ',') == [[]] + tail;
      assert Split(rest, ',')[1..] == tail;
      assert value + Split(rest, ',')[0] == value;
    }
    assert [] + rest[1..] == rest[1..];
    assert DropEmptyLast(parts) == [value] + DropEmptyLast(tail);
    TrimAllCons(value, DropEmptyLast(tail));
  }

  /** On input without quotes, scanning from the Normal state saves the
      comma-separated pieces of `value + rest`, each trimmed, and drops the
      last piece exactly when it is empty before trimming. */
  lemma {:induction false} ScanNoQuotes(rest: string, value: string)
    requires '"' !in rest && '"' !in value && ',' !in value
    ensures Scan(rest, Normal, value) == SavedPieces(value + rest)
    decreases |rest|
  {
    if |rest| == 0 {
      NoQuotesEnd(value);
    } else if rest[0] == ',' {
      ScanNoQuotes(rest[1..], []);
      NoQuotesComma(rest, value);
    } else {
      ScanNoQuotes(rest[1..], value + [rest[0]]);
      assert value + [rest[0]] + rest[1..] == value + rest;
    }
  }

  /** A line without quotes parses to its comma-separated pieces, each
      trimmed, with the last piece omitted exactly when it is empty before
      trimming. */
  lemma {:induction false} ParseWithoutQuotes(line: string)
    requires '"' !in line
    ensures ParseCsv(line) == SavedPieces(line)
  {
    ScanNoQuotes(line, []);
    assert [] + line == line;
    var parts := Split(line, ',');
    SplitJoin(line, ',');
    var kept := DropEmptyLast(parts);
    var raw := TrimAll(kept);
    assert Scan(line, Normal, []) == raw;
    forall i | 0 <= i < |raw|
      ensures Unquote(raw[i]) == raw[i]
    {
      assert kept[i] == parts[i];
      if '"' in raw[i] {
        TrimKeeps(kept[i], '"');
        JoinContains([','], parts, '"');
      }
    }
  }

  /** An empty line has no fields. */
  lemma EmptyLine()
    ensures ParseCsv("") == []
  {
  }

  /** Inside a quoted region a comma is an ordinary character and a doubled
      quote contributes one quote and consumes both; the single quote that
      closes the region (one not followed by another) returns to Normal and
      is kept in the field. */
  lemma {:induction false} ScanQuotedRegion(w: string, rest: string, value: string)
    requires rest == [] || rest[0] != '"'
    ensures Scan(DoubleQuotes(w) + "\"" + rest, Quote, value)
         == Scan(rest, Normal, value + w + "\"")
    decreases |w|
  {
    if |w| == 0 {
      assert DoubleQuotes(w) + "\"" + rest == "\"" + rest;
      ScanQuoteClose(rest, value);
      assert value + w + "\"" == value + "\"";
    } else {
      var next := value + [w[0]];
      QuotedRegionStep(w, rest, value);
      ScanQuotedRegion(w[1..], rest, next);
      ConsAppend(value, w, "\"");
    }
  }

  lemma ConsAppend(value: string, w: string, tail: string)
    requires |w| > 0
    ensures value + [w[0]] + w[1..] + tail == value + w + tail
  {
    assert [w[0]] + w[1..] == w;
  }

  /** The first character of a quoted region, doubled if it is a quote, is
      read as that character. */
  lemma QuotedRegionStep(w: string, rest: string, value: string)
    requires |w| > 0
    ensures Scan(DoubleQuotes(w) + "\"" + rest, Quote, value)
         == Scan(DoubleQuotes(w[1..]) + "\"" + rest, Quote, value + [w[0]])
  {
    var after := DoubleQuotes(w[1..]) + "\"" + rest;
    DoubledHead(w, rest);
    if w[0] == '"' {
      ScanQuoteDoubled(after, value);
    } else {
      ScanQuoteOther(w[0], after, value);
    }
  }

  /** The first character of a value, doubled if it is a quote, comes
      first in its escaped form. */
  lemma DoubledHead(w: string, rest: string)
    requires |w| > 0
    ensures DoubleQuotes(w) + "\"" + rest
         == (if w[0] == '"' then "\"\"" else [w[0]]) + (DoubleQuotes(w[1..]) + "\"" + rest)
  {
  }

  /** In a quoted region, a doubled quote contributes one quote. */
  lemma ScanQuoteDoubled(rest: string, value: string)
    ensures Scan("\"\"" + rest, Quote, value) == Scan(rest, Quote, value + ['"'])
  {
    assert ("\"\"" + rest)[2..] == rest;
  }

  /** In a quoted region, any character but a quote is kept as it is. */
  lemma ScanQuoteOther(c: char, rest: string, value: string)
    requires c != '"'
    ensures Scan([c] + rest, Quote, value) == Scan(rest, Quote, value + [c])
  {
    assert ([c] + rest)[1..] == rest;
  }

  /** A quote not followed by another closes the quoted region; it is kept. */
  lemma ScanQuoteClose(rest: string, value: string)
    requires rest == [] || rest[0] != '"'
    ensures Scan("\"" + rest, Quote, value) == Scan(rest, Normal, value + "\"")
  {
    assert ("\"" + rest)[1..] == rest;
  }

  /** A character that is neither a comma, a quote nor white space. */
  predicate Plain(c: char) {
    c != ',' && c != '"' && !IsSpace(c)
  }

  /** A trailing comma does not produce an empty last field: `a,b,` parses
      to the two fields `a` and `b`. */
  lemma {:induction false} TrailingComma(a: char, b: char)
    requires Plain(a)
    requires Plain(b)
    ensures ParseCsv([a, ',', b, ',']) == [[a], [b]]
  {
    var line := [a, ',', b, ','];
    assert line == [a, ','] + [b, ','];
    PlainThenComma(a, [b, ',']);
    assert [b, ','] == [b, ','] + [];
    PlainThenComma(b, []);
    ParseOfScan(line, [[a], [b]]);
    assert Unquote([a]) == [a] && Unquote([b]) == [b];
  }

  /** A one-character field closed by a comma is saved on its own. */
  lemma {:induction false} PlainThenComma(c: char, rest: string)
    requires Plain(c)
    ensures Scan([c, ','] + rest, Normal, []) == [[c]] + Scan(rest, Normal, [])
  {
    var line := [c, ','] + rest;
    assert line[0] == c && line[1] == ',' && line[2..] == rest;
    assert [] + [c] == [c];
    assert Scan(line, Normal, []) == Scan(line[1..], Normal, [c]);
    assert Scan(line[1..], Normal, [c]) == [Trim([c])] + Scan(rest, Normal, []);
    TrimSpaces([], [c], []);
    assert [] + [c] + [] == [c];
  }

  /** A doubled quote inside a quoted region contributes one quote and
      the comma after the closing quote ends the field: `"a""b",c` parses to
      `a"b` and `c`. */
  lemma {:induction false} DoubledQuote(a: char, b: char, c: char)
    requires Plain(a)
    requires Plain(b)
    requires Plain(c)
    ensures ParseCsv(['"', a, '"', '"', b, '"', ',', c]) == [[a, '"', b], [c]]
  {
    DoubledQuoteScan(a, b, c);
    var f := ['"', a, '"', b, '"'];
    assert f[1..][..3] == [a, '"', b];
    assert Unquote(f) == [a, '"', b];
    assert Unquote([c]) == [c];
  }

  lemma {:induction false} DoubledQuoteScan(a: char, b: char, c: char)
    requires Plain(a)
    requires Plain(b)
    requires Plain(c)
    ensures Scan(['"', a, '"', '"', b, '"', ',', c], Normal, []) == [['"', a, '"', b, '"'], [c]]
  {
    var line := ['"', a, '"', '"', b, '"', ',', c];
    var f := ['"', a, '"', b, '"'];
    QuotedRegionOfExample(a, b, c);
    LastTwoFields(f, c);
  }

  lemma {:induction false} QuotedRegionOfExample(a: char, b: char, c: char)
    requires Plain(a)
    requires Plain(b)
    ensures Scan(['"', a, '"', '"', b, '"', ',', c], Normal, [])
         == Scan([',', c], Normal, ['"', a, '"', b, '"'])
  {
    var line := ['"', a, '"', '"', b, '"', ',', c];
    var w := [a, '"', b];
    DoubleQuotesExample(a, b);
    assert line[1..] == DoubleQuotes(w) + "\"" + [',', c];
    ScanQuotedRegion(w, [',', c], "\"");
    assert [] + ['"'] == "\"";
    assert Scan(line, Normal, []) == Scan(line[1..], Quote, "\"");
    assert "\"" + w + "\"" == ['"', a, '"', b, '"'];
  }

  /** The value `a"b` escaped the RFC 4180 way is `a""b`. */
  lemma DoubleQuotesExample(a: char, b: char)
    requires Plain(a)
    requires Plain(b)
    ensures DoubleQuotes([a, '"', b]) == [a, '"', '"', b]
  {
    var w := [a, '"', b];
    assert w[1..] == ['"', b] && w[1..][1..] == [b] && w[1..][1..][1..] == [];
    assert DoubleQuotes([b]) == [b] + DoubleQuotes([]);
    assert DoubleQuotes(['"', b]) == "\"\"" + DoubleQuotes([b]);
    assert DoubleQuotes(w) == [a] + DoubleQuotes(['"', b]);
  }

  /** The line `"a""b"` on its own scans to the one field `"a"b"`. */
  lemma {:induction false} DoubledQuoteAlone(a: char, b: char)
    requires Plain(a)
    requires Plain(b)
    ensures Scan(['"', a, '"', '"', b, '"'], Normal, []) == [['"', a, '"', b, '"']]
  {
    var f := ['"', a, '"', b, '"'];
    QuotedRegionAlone(a, b);
    TrimSpaces([], f, []);
    assert [] + f + [] == f;
  }

  lemma {:induction false} QuotedRegionAlone(a: char, b: char)
    requires Plain(a)
    requires Plain(b)
    ensures Scan(['"', a, '"', '"', b, '"'], Normal, []) == Scan([], Normal, ['"', a, '"', b, '"'])
  {
    var line := ['"', a, '"', '"', b, '"'];
    var w := [a, '"', b];
    DoubleQuotesExample(a, b);
    assert line[1..] == DoubleQuotes(w) + "\"" + [];
    ScanQuotedRegion(w, [], "\"");
    assert [] + ['"'] == "\"";
    assert Scan(line, Normal, []) == Scan(line[1..], Quote, "\"");
    assert "\"" + w + "\"" == ['"', a, '"', b, '"'];
  }

  lemma {:induction false} LastTwoFields(f: string, c: char)
    requires Plain(c)
    requires f != [] && !IsSpace(f[0]) && !IsSpace(f[|f| - 1])
    ensures Scan([',', c], Normal, f) == [f, [c]]
  {
    TrimSpaces([], f, []);
    TrimSpaces([], [c], []);
    assert [] + f + [] == f;
    assert [] + [c] + [] == [c];
    assert [] + [c] == [c];
    assert Scan([c], Normal, []) == Scan([], Normal, [c]);
    assert Scan([c], Normal, []) == [[c]];
    assert Scan([',', c], Normal, f) == [Trim(f)] + Scan([c], Normal, []);
    assert [f] + [[c]] == [f, [c]];
  }

  /** A quote that does not open the field is kept: `a"` parses to `a"`. */
  lemma {:induction false} TrailingQuoteKept(a: char)
    requires Plain(a)
    ensures ParseCsv([a, '"']) == [[a, '"']]
  {
    var line := [a, '"'];
    TrailingQuoteScan(a);
    ParseOfScan(line, [line]);
    assert Unquote(line) == line;
  }

  lemma {:induction false} TrailingQuoteScan(a: char)
    requires Plain(a)
    ensures Scan([a, '"'], Normal, []) == [[a, '"']]
  {
    var line := [a, '"'];
    assert Scan(line, Normal, []) == Scan([], Quote, line) by {
      assert [] + [a] == [a];
      assert Scan(line, Normal, []) == Scan(line[1..], Normal, [a]);
      assert [a] + ['"'] == line && line[1..][1..] == [];
    }
    assert Trim(line) == line by {
      TrimSpaces([], line, []);
      assert [] + line + [] == line;
    }
  }

  /** Unquoting undoes one layer of wrapping quotes, whatever the value. */
  lemma {:induction false} UnquoteQuoted(v: string)
    ensures Unquote(Quoted(v)) == v
  {
    var f := Quoted(v);
    assert f[1..][..|f| - 2] == v;
  }

  /** White space around a quoted field is trimmed away, but white space
      inside the quotes survives, because fields are trimmed before their
      quotes are removed. */
  lemma {:induction false} QuotedWhitespaceSurvives(lead: string, v: string, trail: string)
    requires forall k :: 0 <= k < |lead| ==> IsSpace(lead[k])
    requires forall k :: 0 <= k < |trail| ==> IsSpace(trail[k])
    requires '"' !in v
    ensures ParseCsv(lead + Quoted(v) + trail) == [v]
  {
    var q := Quoted(v);
    var line := lead + q + trail;
    QuotedBetweenSpaces(lead, v, trail);
    TrimSpaces(lead, q, trail);
    assert Scan(line, Normal, []) == [q];
    ParseOfScan(line, [q]);
    UnquoteQuoted(v);
  }

  lemma SpacesArePlain(s: string)
    requires forall k :: 0 <= k < |s| ==> IsSpace(s[k])
    ensures forall k :: 0 <= k < |s| ==> s[k] != ',' && s[k] != '"'
  {
    assert !IsSpace(',') && !IsSpace('"');
  }

  /** Scanning white space, a wrapped quote-free value and white space
      saves a single field: all of it, trimmed. */
  lemma {:induction false} QuotedBetweenSpaces(lead: string, v: string, trail: string)
    requires forall k :: 0 <= k < |lead| ==> IsSpace(lead[k])
    requires forall k :: 0 <= k < |trail| ==> IsSpace(trail[k])
    requires '"' !in v
    ensures Scan(lead + Quoted(v) + trail, Normal, []) == [Trim(lead + Quoted(v) + trail)]
  {
    var q := Quoted(v);
    SpacesArePlain(lead);
    SpacesArePlain(trail);
    assert lead + q + trail == lead + (q + trail);
    ScanPlain(lead, q + trail, []);
    assert [] + lead == lead;
    ScanQuotedValue(lead, v, trail);
    ScanPlain(trail, [], lead + q);
    assert trail + [] == trail;
  }

  /** A quote-free value wrapped in quotes is read as one quoted region
      and appended, quotes included, to the field being built. */
  lemma {:induction false} ScanQuotedValue(value: string, e: string, tail: string)
    requires '"' !in e
    requires tail == [] || tail[0] != '"'
    ensures Scan(Quoted(e) + tail, Normal, value) == Scan(tail, Normal, value + Quoted(e))
  {
    var q := Quoted(e);
    ScanOpenQuote(q + tail, value);
    QuotedTail(e, tail);
    ScanQuotedRegion(e, tail, value + "\"");
    assert value + "\"" + e + "\"" == value + q;
  }

  /** In the Normal state a quote is kept and enters the Quote state. */
  lemma ScanOpenQuote(x: string, value: string)
    requires x != [] && x[0] == '"'
    ensures Scan(x, Normal, value) == Scan(x[1..], Quote, value + "\"")
  {
  }

  /** After its opening quote, a wrapped quote-free value reads as the
      value with its (absent) quotes doubled and the closing quote. */
  lemma QuotedTail(e: string, tail: string)
    requires '"' !in e
    ensures (Quoted(e) + tail)[1..] == DoubleQuotes(e) + "\"" + tail
  {
    DoubleQuotesNone(e);
    assert Quoted(e) + tail == "\"" + (e + "\"" + tail);
  }

  /** The same, at the start of a field. */
  lemma ScanQuotedCell(e: string, tail: string)
    requires '"' !in e
    requires tail == [] || tail[0] != '"'
    ensures Scan(Quoted(e) + tail, Normal, []) == Scan(tail, Normal, Quoted(e))
  {
    ScanQuotedValue([], e, tail);
    assert [] + Quoted(e) == Quoted(e);
  }

  /** A wrapped value is its own trimmed form. */
  lemma TrimQuoted(e: string)
    ensures Trim(Quoted(e)) == Quoted(e)
  {
    TrimSpaces([], Quoted(e), []);
    assert [] + Quoted(e) + [] == Quoted(e);
  }

  /** Scanning quote-free values, each wrapped in quotes and joined by
      commas, saves exactly the wrapped values: commas inside the quotes
      and empty values included. */
  lemma {:induction false} ScanQuotedCells(es: seq<string>)
    requires forall i :: 0 <= i < |es| ==> '"' !in es[i]
    ensures Scan(Join(",", QuotedAll(es)), Normal, []) == QuotedAll(es)
    decreases |es|
  {
    if |es| == 1 {
      var q := Quoted(es[0]);
      assert Join(",", QuotedAll(es)) == q + [];
      ScanQuotedCell(es[0], []);
      TrimQuoted(es[0]);
      assert Scan([], Normal, q) == [q];
    } else if |es| > 1 {
      var q := Quoted(es[0]);
      var rest := Join(",", QuotedAll(es[1..]));
      assert QuotedAll(es)[1..] == QuotedAll(es[1..]);
      assert Join(",", QuotedAll(es)) == q + ("," + rest);
      ScanQuotedCell(es[0], "," + rest);
      TrimQuoted(es[0]);
      assert ("," + rest)[1..] == rest;
      assert Scan("," + rest, Normal, q) == [q] + Scan(rest, Normal, []);
      ScanQuotedCells(es[1..]);
      assert QuotedAll(es) == [q] + QuotedAll(es[1..]);
    }
  }

  /** Quote-free values, each wrapped in quotes and joined by commas, parse
      back to exactly those values. */
  lemma {:induction false} ParseQuotedRow(es: seq<string>)
    requires forall i :: 0 <= i < |es| ==> '"' !in es[i]
    ensures ParseCsv(Join(",", QuotedAll(es))) == es
  {
    ScanQuotedCells(es);
    ParseOfScan(Join(",", QuotedAll(es)), QuotedAll(es));
    forall i | 0 <= i < |es|
      ensures Unquote(QuotedAll(es)[i]) == es[i]
    {
      UnquoteQuoted(es[i]);
    }
  }
}

=== FILE: strings.dfy ===
/**
 The string vocabulary the CSV codec is written in: Qt's notion of white
 space, `QString::trimmed`, joining a list with a separator, splitting on a
 character, and wrapping a value in double quotes.
 */
module Strings {

  datatype Option<+T> = None | Some(value: T)

  /** `QChar::isSpace`: TAB through CR, the space, NEL, NO-BREAK SPACE and
      the Unicode separator categories Zs, Zl and Zp. */
  predicate IsSpace(c: char) {
    var n := c as int;
    || 9 <= n <= 13
    || n == 0x20 || n == 0x85 || n == 0xA0 || n == 0x1680
    || 0x2000 <= n <= 0x200A
    || n == 0x2028 || n == 0x2029 || n == 0x202F || n == 0x205F || n == 0x3000
  }

  /** The white space of the codec's own characters: space, tab, newline
      and carriage return are white space; the comma, the quote, `%`, the
      digits and the ASCII letters are not. */
  lemma SpaceCharacters(c: char)
    ensures c == ' ' || c == '\t' || c == '\n' || c == '\r' ==> IsSpace(c)
    ensures c == ',' || c == '"' || c == '%' || '0' <= c <= '9' || 'A' <= c <= 'Z' || 'a' <= c <= 'z' ==> !IsSpace(c)
  {
  }

  /** `s` with its leading white space removed. */
  function TrimStart(s: string): (r: string)
    ensures |r| <= |s| && r == s[|s| - |r|..]
    ensures forall i :: 0 <= i < |s| - |r| ==> IsSpace(s[i])
    ensures r == [] || !IsSpace(r[0])
  {
    if |s| > 0 && IsSpace(s[0]) then TrimStart(s[1..]) else s
  }

  /** `s` with its trailing white space removed. */
  function TrimEnd(s: string): (r: string)
    ensures |r| <= |s| && r == s[..|r|]
    ensures forall i :: |r| <= i < |s| ==> IsSpace(s[i])
    ensures r == [] || !IsSpace(r[|r| - 1])
  {
    if |s| > 0 && IsSpace(s[|s| - 1]) then TrimEnd(s[..|s| - 1]) else s
  }

  /** `QString::trimmed`: `s` without the white space at either end. */
  function Trim(s: string): (r: string)
    ensures |r| <= |s|
    ensures r == [] || (!IsSpace(r[0]) && !IsSpace(r[|r| - 1]))
  {
    TrimEnd(TrimStart(s))
  }

  /** A prefix of a suffix is a slice, and the characters after it are
      those of the suffix. */
  lemma SuffixPrefix(s: string, i: nat, n: nat)
    requires i + n <= |s|
    ensures s[i..][..n] == s[i..i + n]
    ensures forall k :: i + n <= k < |s| ==> s[k] == s[i..][k - i]
  {
  }

  /** The trimmed text is the slice of `s` that starts where the leading
      white space ends. */
  lemma TrimIsSlice(s: string)
    ensures var i := |s| - |TrimStart(s)|;
      i + |Trim(s)| <= |s| && Trim(s) == s[i..i + |Trim(s)|]
  {
    var t := TrimStart(s);
    var r := TrimEnd(t);
    var i := |s| - |t|;
    assert t == s[i..] && r == t[..|r|];
    SuffixPrefix(s, i, |r|);
  }

  /** Everything trimming removes is white space. */
  lemma TrimRemovesSpaces(s: string)
    ensures var i := |s| - |TrimStart(s)|;
      && (forall k :: 0 <= k < i ==> IsSpace(s[k]))
      && (forall k :: i + |Trim(s)| <= k < |s| ==> IsSpace(s[k]))
  {
    var t := TrimStart(s);
    var r := TrimEnd(t);
    var i := |s| - |t|;
    assert t == s[i..];
    forall k | i + |r| <= k < |s|
      ensures IsSpace(s[k])
    {
      assert s[k] == t[k - i];
    }
  }

  /** Trimming only ever removes characters: whatever `Trim(s)` holds, `s` holds. */
  lemma {:induction false} TrimKeeps(s: string, c: char)
    requires c in Trim(s)
    ensures c in s
  {
    TrimIsSlice(s);
    var r := Trim(s);
    var i := |s| - |TrimStart(s)|;
    var j :| 0 <= j < |r| && r[j] == c;
    assert s[i + j] == c;
  }

  lemma {:induction false} TrimStartSpaces(lead: string, x: string)
    requires forall k :: 0 <= k < |lead| ==> IsSpace(lead[k])
    requires x != [] && !IsSpace(x[0])
    ensures TrimStart(lead + x) == x
    decreases |lead|
  {
    if |lead| == 0 {
      assert lead + x == x;
    } else {
      assert (lead + x)[1..] == lead[1..] + x;
      TrimStartSpaces(lead[1..], x);
    }
  }

  lemma {:induction false} TrimEndSpaces(x: string, trail: string)
    requires forall k :: 0 <= k < |trail| ==> IsSpace(trail[k])
    requires x != [] && !IsSpace(x[|x| - 1])
    ensures TrimEnd(x + trail) == x
    decreases |trail|
  {
    if |trail| == 0 {
      assert x + trail == x;
    } else {
      var n := |trail| - 1;
      assert (x + trail)[..|x + trail| - 1] == x + trail[..n];
      TrimEndSpaces(x, trail[..n]);
    }
  }

  /** Trimming a string that is white space, then `m`, then white space,
      where `m` neither begins nor ends with white space, gives back `m`. */
  lemma {:induction false} TrimSpaces(lead: string, m: string, trail: string)
    requires forall k :: 0 <= k < |lead| ==> IsSpace(lead[k])
    requires forall k :: 0 <= k < |trail| ==> IsSpace(trail[k])
    requires m != [] && !IsSpace(m[0]) && !IsSpace(m[|m| - 1])
    ensures Trim(lead + m + trail) == m
  {
    assert lead + m + trail == lead + (m + trail);
    TrimStartSpaces(lead, m + trail);
    TrimEndSpaces(m, trail);
  }

  /** `QStringList::join`: the items with `sep` between consecutive ones and
      nowhere else. */
  function Join(sep: string, xs: seq<string>): string
  {
    if |xs| == 0 then []
    else if |xs| == 1 then xs[0]
    else xs[0] + sep + Join(sep, xs[1..])
  }

  /** Appending an item puts one separator before it, unless the list was
      empty. */
  lemma {:induction false} JoinSnoc(sep: string, xs: seq<string>, x: string)
    ensures Join(sep, xs + [x]) == if |xs| == 0 then x else Join(sep, xs) + sep + x
    decreases |xs|
  {
    if |xs| == 1 {
      assert (xs + [x])[1..] == [x];
    } else if |xs| > 1 {
      assert (xs + [x])[1..] == xs[1..] + [x];
      JoinSnoc(sep, xs[1..], x);
    }
  }

  /** A character that is not part of the separator occurs in the joined
      text exactly when it occurs in one of the items. */
  lemma {:induction false} JoinContains(sep: string, xs: seq<string>, c: char)
    requires c !in sep
    ensures c in Join(sep, xs) <==> exists i :: 0 <= i < |xs| && c in xs[i]
    decreases |xs|
  {
    if |xs| > 1 {
      JoinContains(sep, xs[1..], c);
      assert Join(sep, xs) == xs[0] + sep + Join(sep, xs[1..]);
      if exists i :: 0 <= i < |xs| && c in xs[i] {
        var i :| 0 <= i < |xs| && c in xs[i];
        if i > 0 {
          assert c in xs[1..][i - 1];
        }
      }
      if exists i :: 0 <= i < |xs[1..]| && c in xs[1..][i] {
        var i :| 0 <= i < |xs[1..]| && c in xs[1..][i];
        assert c in xs[i + 1];
      }
    }
  }

  /** The pieces of `s` between occurrences of `sep`. */
  function Split(s: string, sep: char): (parts: seq<string>)
    ensures |parts| >= 1
    ensures forall i :: 0 <= i < |parts| ==> sep !in parts[i]
  {
    if |s| == 0 then [[]]
    else if s[0] == sep then [[]] + Split(s[1..], sep)
    else
      var rest := Split(s[1..], sep);
      [[s[0]] + rest[0]] + rest[1..]
  }

  /** Joining the pieces back with `sep` gives `s` again. */
  lemma {:induction false} SplitJoin(s: string, sep: char)
    ensures Join([sep], Split(s, sep)) == s
    decreases |s|
  {
    if |s| > 0 {
      var rest := Split(s[1..], sep);
      SplitJoin(s[1..], sep);
      assert s == [s[0]] + s[1..];
      if s[0] == sep {
        assert ([[]] + rest)[1..] == rest;
      } else {
        var parts := [[s[0]] + rest[0]] + rest[1..];
        assert parts[1..] == rest[1..];
        if |rest| > 1 {
          assert Join([sep], rest) == rest[0] + [sep] + Join([sep], rest[1..]);
        }
      }
    }
  }

  /** Splitting `v + t` where `v` has no separator glues `v` onto the first
      piece of `t`. */
  lemma {:induction false} SplitPrefix(v: string, t: string, sep: char)
    requires sep !in v
    ensures Split(v + t, sep) == [v + Split(t, sep)[0]] + Split(t, sep)[1..]
    decreases |v|
  {
    var parts := Split(t, sep);
    if |v| > 0 {
      SplitPrefix(v[1..], t, sep);
      var rest := Split(v[1..] + t, sep);
      assert rest[0] == v[1..] + parts[0];
      assert rest[1..] == parts[1..];
      assert (v + t)[0] == v[0];
      assert (v + t)[1..] == v[1..] + t;
      assert [v[0]] + rest[0] == v + parts[0];
    } else {
      assert v + t == t;
      assert v + parts[0] == parts[0];
      assert parts == [parts[0]] + parts[1..];
    }
  }

  /** Every item followed by `sep`, as lines are written to a text file. */
  function Terminated(xs: seq<string>, sep: char): string
  {
    if |xs| == 0 then [] else xs[0] + [sep] + Terminated(xs[1..], sep)
  }

  /** One more item adds the item and a separator at the end. */
  lemma {:induction false} TerminatedSnoc(xs: seq<string>, x: string, sep: char)
    ensures Terminated(xs + [x], sep) == Terminated(xs, sep) + x + [sep]
    decreases |xs|
  {
    if |xs| == 0 {
      assert (xs + [x])[1..] == [];
      assert Terminated(xs + [x], sep) == x + [sep] + [];
    } else {
      assert (xs + [x])[1..] == xs[1..] + [x];
      TerminatedSnoc(xs[1..], x, sep);
    }
  }

  lemma SplitAtSeparator(t: string, sep: char)
    ensures Split([sep] + t, sep) == [[]] + Split(t, sep)
  {
    assert ([sep] + t)[1..] == t;
  }

  /** An item without the separator, then the separator, is a piece of
      its own. */
  lemma SplitAfterItem(x: string, rest: string, sep: char)
    requires sep !in x
    ensures Split(x + ([sep] + rest), sep) == [x] + Split(rest, sep)
  {
    var parts := Split([sep] + rest, sep);
    SplitAtSeparator(rest, sep);
    assert parts[0] == [] && parts[1..] == Split(rest, sep);
    SplitPrefix(x, [sep] + rest, sep);
    assert x + parts[0] == x;
  }

  /** Splitting terminated items gives the items back, followed by the empty
      piece after the last separator. */
  lemma {:induction false} SplitTerminated(xs: seq<string>, sep: char)
    requires forall i :: 0 <= i < |xs| ==> sep !in xs[i]
    ensures Split(Terminated(xs, sep), sep) == xs + [[]]
    decreases |xs|
  {
    if |xs| > 0 {
      var rest := Terminated(xs[1..], sep);
      SplitTerminated(xs[1..], sep);
      assert Terminated(xs, sep) == xs[0] + ([sep] + rest);
      SplitAfterItem(xs[0], rest, sep);
      assert xs + [[]] == [xs[0]] + (xs[1..] + [[]]);
    }
  }

  /** A value wrapped in one pair of double quotes, as the exporters write
      every cell. */
  function Quoted(v: string): (r: string)
    ensures |r| == |v| + 2 && r[0] == '"' && r[|r| - 1] == '"' && r[1..|r| - 1] == v
  {
    "\"" + v + "\""
  }
}
